=== FILE: README.md ===
# Parallel web crawler engine, modelled in Dafny

This project models the crawl engine of `ParallelWebCrawler`. A crawl starts
from a list of URLs and follows links up to a depth budget within a time
budget. Along the way it records every visited URL once and adds up the
word counts of every page it parses.

The engine runs on a fork-join pool, but every task is started with a
blocking `pool.invoke`. Roots are started in list order and children in link
order, so the engine is a sequential depth-first traversal. The model is
that traversal, written as pure functions:

- `Crawler.Compute` is one `CrawlAction.compute`. It runs the gate, in the
  code's order, rejecting the task at the first of these that holds: (1) the
  URL matches an ignore pattern; (2) the remaining depth is 0; (3) one clock
  reading is strictly after the deadline; (4) `visitedUrls.add` returns
  false. Only when none of them holds does the task claim the URL, parse the
  page, merge its counts and fan out to its links with one less depth.
- `Crawler.InvokeAll` is the sequence of blocking invocations, for the roots
  and for one page's links.
- `Crawler.Crawl` reads the clock once to fix the deadline, runs the roots and
  reports the counts map and the size of the visited set.

The state threaded through the traversal (`Crawler.State`) has four parts:

- the visited set;
- the counts map;
- a log of the URLs whose page was parsed, in order;
- the number of clock readings made so far.

The state belongs to the crawler instance. It is passed from one `Crawl` to
the next and never reset.

Three collaborators are parameters of the model:

- the page parser is a total map from URL to page (links and word counts);
- each ignore pattern is an opaque predicate on URLs;
- the clock is an oracle `clock: nat -> int`, where `clock(k)` is the instant
  returned by the k-th reading.

Some facts hold by construction of the model rather than by a lemma:

- `Compute` parses a page only in the branch where the claim succeeds. That
  branch is `Claim`, which adds the URL to the visited set and to the parse
  log in the same step as the merge. `CrawlProperties.ComputeGate` proves
  that a task parses a page exactly when all four checks pass.
- `Crawl` reads the clock once to fix the deadline. `Compute` and `InvokeAll`
  pass that deadline to every task unchanged.
- Children are started with exactly one less depth than their parent, and
  depth is a `nat`, so no task runs with a negative depth.
- The traversal merges a page with the reference `Counts.Merge`, a pointwise
  wrapped sum. `Counts.MergeIsUpserts` proves that, word by word, this is the
  same as one `counts.compute` call (`Counts.Upsert`). `Counts.MergePage`
  proves that the page's `forEach` of such calls gives `Merge` for any
  iteration order of the page map.

Word counts are Java `int`s. `v + value` wraps around modulo 2^32, and the
model's `Add32` does the same.

Modules:

- `Counts` (`counts.dfy`): the add-or-insert merge of one page into the
  counts, and the running total over a sequence of pages.
- `Crawler` (`crawler.dfy`): the data model, the gate, the traversal and `crawl`.
- `CrawlProperties` (`properties.dfy`): the invariants and lemmas about the traversal.
- `Scenarios` (`scenarios.dfy`): small link graphs whose crawl outcome is proved.

The code makes some choices that a reader might expect to go the other way.
The model follows the code:

- Gate order. The code checks the ignore patterns first
  (`ParallelWebCrawler.java:86`), then the depth, then the deadline, then the
  claim. Consider a variant that checks depth and the deadline before the
  ignore patterns. Both check depth before the clock, so a task with no depth
  left reads no clock in either. The tasks that differ are those for an
  ignored URL with depth left: in the code they read no clock, in the variant
  they read it once. When the clock moves, that extra reading shifts every
  later reading, so later gates can decide differently. For example, take
  roots I then X, with I ignored, a depth of 1, a timeout of 0 and clock
  readings 0, 0, 10. The code claims X (`Scenarios.IgnoredRootReadsNoClock`).
  The variant would reject X, because X's gate would read 10.
- A depth budget of 2. Take the graph A -> B, C and B -> A, D. One might
  expect four visited pages, with D parsed. In the code, a budget of 2 gives
  A depth 2 and B depth 1, so D reaches its task with depth 0 and is
  rejected. Three pages are visited (`Scenarios.CycleDepthTwo`).
- Timeout 0. The deadline test is a strict `isAfter`
  (`ParallelWebCrawler.java:86`). With a zero timeout, a task whose clock
  reading equals the one that fixed the deadline still passes the deadline
  check, so a zero timeout does not stop the crawl by itself.
  `CrawlProperties.ExpiredCrawl` assumes every later reading is after the one
  that fixed the deadline, and then nothing is visited.
  `CrawlProperties.CrawlVisitsRoots` covers the other side: while no later
  reading is after the deadline, every starting URL that no pattern ignores
  is visited.
- Visited state. It is not fresh per crawl: it lives in instance fields that
  `crawl` never clears (`CrawlProperties.RecrawlNoEffect`).
- Fetch failures. They are not isolated per task. The code does not catch
  them, so the model has no failure path.

## Model

| member | source | states |
|---|---|---|
| `Counts.Add32` | src/main/java/com/udacity/webcrawler/ParallelWebCrawler.java:90 | `v + value` on Java ints always yields an `int`, and it is the exact sum whenever that sum fits in an `int` |
| `Counts.WrapKeepsResidue` | src/main/java/com/udacity/webcrawler/ParallelWebCrawler.java:90 | the wrapped value differs from the exact one by a multiple of 2^32 |
| `Counts.WrapThenAdd` | src/main/java/com/udacity/webcrawler/ParallelWebCrawler.java:90 | adding to a count that has already wrapped gives the same `int` as wrapping the exact sum once |
| `Counts.Upsert` | src/main/java/com/udacity/webcrawler/ParallelWebCrawler.java:90 | one `counts.compute` call: the word becomes a key, its count becomes the page's count if it was absent or the previous count plus the page's count otherwise, and every other word keeps its count |
| `Counts.MergeIsUpserts` | src/main/java/com/udacity/webcrawler/ParallelWebCrawler.java:90 | the reference merge has the keys of both maps; each word of the page gets what one `counts.compute` of its page count gives it, and every other word keeps its count |
| `Counts.MergePage` | src/main/java/com/udacity/webcrawler/ParallelWebCrawler.java:90 | the page's `forEach` of add-or-insert calls yields the pointwise wrapped sum of the counts and the page's map, whatever the map's iteration order |
| `Counts.TallyIsTotal` | src/main/java/com/udacity/webcrawler/ParallelWebCrawler.java:90 | after merging a sequence of pages, a word is present iff some page has it, and its count is the exact total over the pages wrapped to an `int` |
| `Crawler.IsIgnored` | src/main/java/com/udacity/webcrawler/ParallelWebCrawler.java:59-66 | a URL is ignored iff some pattern in the list matches it |
| `Crawler.Compute` | src/main/java/com/udacity/webcrawler/ParallelWebCrawler.java:85-92 | a task never removes a visited URL, never rewrites the log of parsed pages and never claims an ignored URL |
| `Crawler.InvokeAll` | src/main/java/com/udacity/webcrawler/ParallelWebCrawler.java:91 | invoking tasks in order keeps the visited set growing, the parse log append-only and ignored URLs unclaimed |
| `Crawler.Crawl` | src/main/java/com/udacity/webcrawler/ParallelWebCrawler.java:50-57 | the reported `urlsVisited` is the size of the visited set and the reported counts are the accumulated counts; earlier visits are kept and ignored URLs are never added |
| `Crawler.Claim` | src/main/java/com/udacity/webcrawler/ParallelWebCrawler.java:86-90 | a successful `visitedUrls.add`, then the parse and the merge: the URL joins the visited set and the parse log, each word of its page gets one `counts.compute` of its page count, and a word not on the page stays present or absent as it was, with its count unchanged |
| `CrawlProperties.ComputeGate` | src/main/java/com/udacity/webcrawler/ParallelWebCrawler.java:86-89 | a task parses a page exactly when all four checks pass (not ignored, depth left, clock reading not after the deadline, URL not yet visited); then its own URL is visited and is the first page it parses |
| `CrawlProperties.FreshIsConsistent` | src/main/java/com/udacity/webcrawler/ParallelWebCrawler.java:28-29 | a new crawler, with an empty set and an empty map, satisfies the invariant: parsed pages distinct, visited set equal to the parsed pages, counts equal to their merge |
| `CrawlProperties.ClaimConsistent` | src/main/java/com/udacity/webcrawler/ParallelWebCrawler.java:86-90 | claiming an unvisited URL and merging its page keeps the invariant |
| `CrawlProperties.ComputeConsistent` | src/main/java/com/udacity/webcrawler/ParallelWebCrawler.java:86-91 | a task keeps the invariant (parsed pages distinct, visited set equal to the parsed pages, counts equal to their merge), so it never parses a page twice |
| `CrawlProperties.InvokeAllConsistent` | src/main/java/com/udacity/webcrawler/ParallelWebCrawler.java:91 | a sequence of tasks keeps the invariant |
| `CrawlProperties.ComputeWithinDepth` | src/main/java/com/udacity/webcrawler/ParallelWebCrawler.java:86-91 | a URL newly visited by a task with depth d has d > 0 and lies at most d - 1 links from the task's URL |
| `CrawlProperties.InvokeAllWithinDepth` | src/main/java/com/udacity/webcrawler/ParallelWebCrawler.java:91 | a URL newly visited by tasks of depth d lies at most d - 1 links from one of their URLs |
| `CrawlProperties.InvokeAllVisits` | src/main/java/com/udacity/webcrawler/ParallelWebCrawler.java:91 | while no clock reading is after the deadline, tasks with depth left visit every URL they are started for that no pattern ignores |
| `CrawlProperties.ComputeFansOut` | src/main/java/com/udacity/webcrawler/ParallelWebCrawler.java:86-91 | an admitted task with depth above 1 starts a task for each link of its page: while the deadline holds, every link that no pattern ignores ends up visited |
| `CrawlProperties.NoDepthNoEffect` | src/main/java/com/udacity/webcrawler/ParallelWebCrawler.java:86-87 | tasks with depth 0 leave the whole state unchanged: nothing is claimed, parsed or merged, and the clock is not read |
| `CrawlProperties.ExpiredTaskNoEffect` | src/main/java/com/udacity/webcrawler/ParallelWebCrawler.java:86-87 | a task whose clock reading is after the deadline only consumes that reading; the URL stays unclaimed |
| `CrawlProperties.PastDeadlineNoEffect` | src/main/java/com/udacity/webcrawler/ParallelWebCrawler.java:86-87 | when every later clock reading is after the deadline, tasks of any depth claim, parse and merge nothing |
| `CrawlProperties.VisitedNoEffect` | src/main/java/com/udacity/webcrawler/ParallelWebCrawler.java:86-87 | tasks for already visited URLs claim, parse and merge nothing |
| `CrawlProperties.VisitedCountIsFetches` | src/main/java/com/udacity/webcrawler/ParallelWebCrawler.java:55 | in a consistent state the size of the visited set is the number of pages parsed |
| `CrawlProperties.CrawlConsistent` | src/main/java/com/udacity/webcrawler/ParallelWebCrawler.java:50-56 | every crawl of an instance keeps the invariant; the reported count is the number of pages parsed over the instance's life, and each word's reported count is the wrapped total over those pages |
| `CrawlProperties.CrawlFromFresh` | src/main/java/com/udacity/webcrawler/ParallelWebCrawler.java:50-56 | first crawl of a new instance: visited URLs are exactly the parsed ones, none parsed twice and none ignored; each is within maxDepth - 1 links of a starting URL; a word is reported iff a parsed page has it |
| `CrawlProperties.CrawlVisitsRoots` | src/main/java/com/udacity/webcrawler/ParallelWebCrawler.java:50-52 | with maxDepth above 0 and no later clock reading after the deadline, every starting URL that no pattern ignores is visited |
| `CrawlProperties.NoDepthCrawl` | src/main/java/com/udacity/webcrawler/ParallelWebCrawler.java:52-55 | a crawler with maxDepth 0 visits nothing; on a new instance it reports an empty map and 0 URLs |
| `CrawlProperties.ExpiredCrawl` | src/main/java/com/udacity/webcrawler/ParallelWebCrawler.java:51-52 | when every later clock reading is after the reading that fixed the deadline and the timeout is not positive, the crawl claims, parses and merges nothing |
| `CrawlProperties.RecrawlNoEffect` | src/main/java/com/udacity/webcrawler/ParallelWebCrawler.java:28-29 | state is not reset between crawls: re-crawling starting URLs that are already visited parses nothing and reports the old visited count |
| `Scenarios.CycleDepthTwo` | src/main/java/com/udacity/webcrawler/ParallelWebCrawler.java:86-91 | A -> B, C and B -> A, D with budget 2: A, B and C are parsed in that order, D is not, and the counts are the sums over A, B and C |
| `Scenarios.LongPathClaimsFirst` | src/main/java/com/udacity/webcrawler/ParallelWebCrawler.java:86-91 | A -> B, C; B -> C; C -> D with budget 3: A, B and C are parsed in that order, so C is claimed through B; D is never visited although it is two links from A |
| `Scenarios.IgnoredLinkSkipped` | src/main/java/com/udacity/webcrawler/ParallelWebCrawler.java:59-66 | with a pattern matching C, C is never claimed although A links to it |
| `Scenarios.IgnoredRootReadsNoClock` | src/main/java/com/udacity/webcrawler/ParallelWebCrawler.java:86 | an ignored root reads no clock: with roots I (ignored) and X, timeout 0 and readings 0, 0, 10, the crawl makes two readings and claims X |

## Left out

- Thread pool: `ForkJoinPool` construction, `getMaxParallelism` and
  `availableProcessors` are left out. Every invocation blocks, so the
  traversal is sequential.
- Locking: the `synchronizedMap` and `synchronizedSet` wrappers are modelled
  as a plain map and a plain set.
- Page parsing: the parser is an abstract total map from URL to page. A parse
  that throws is not modelled, because the code does not catch it.
- Regular expressions: each pattern is an opaque predicate on URLs.
- `WordCounts.sort`: the ranking of the most frequent words is not part of
  this model. The result carries the raw counts map.
- Time: `Instant` and `Duration` are plain integers. An overflow in
  `Instant.plus` is not modelled.
- Crawler.Compute: depth is a `nat`. A negative `maxDepth` never reaches 0 in
  the code, so the recursion is then bounded only by the deadline and the
  visited set. That case is not modelled.
- Crawler.Crawl: `urlsVisited` is an unbounded `nat`. `Set.size()` caps it at
  `Integer.MAX_VALUE`, which no reachable crawl can hit.
- The profiling interceptor (`ProfilingMethodInterceptor`) is left out. It only
  observes and times calls and does not affect the crawl.

=== FILE: counts.dfy ===
/**
 The word-count accumulator of the crawler: a map from word to a Java `int`
 count, updated by add-or-insert for every entry of a fetched page.

 Java `int` addition wraps around modulo 2^32, so totals are kept as 32-bit
 two's-complement values and every addition goes through `Add32`.
 */
module Counts {

  type Word = string

  /** The values of a Java `int`. */
  type Int32 = x: int | -0x8000_0000 <= x <= 0x7fff_ffff

  /** The Java `int` congruent to `x` modulo 2^32: what a truncating cast keeps. */
  function Wrap32(x: int): (r: Int32)
    ensures -0x8000_0000 <= x <= 0x7fff_ffff ==> r == x
  {
    (x + 0x8000_0000) % 0x1_0000_0000 - 0x8000_0000
  }

  /** Wrapping keeps the value modulo 2^32. */
  lemma WrapKeepsResidue(x: int)
    ensures (x - Wrap32(x)) % 0x1_0000_0000 == 0
  {
    var q := (x + 0x8000_0000) / 0x1_0000_0000;
    assert x + 0x8000_0000 == q * 0x1_0000_0000 + (x + 0x8000_0000) % 0x1_0000_0000;
    assert x - Wrap32(x) == q * 0x1_0000_0000;
  }

  /** Two integers congruent modulo 2^32 wrap to the same `int`. */
  lemma WrapCongruent(x: int, y: int)
    requires (x - y) % 0x1_0000_0000 == 0
    ensures Wrap32(x) == Wrap32(y)
  {
    var k := (x - y) / 0x1_0000_0000;
    assert x == y + k * 0x1_0000_0000;
  }

  /** Java `int` addition, `v + value` on two unboxed `Integer`s. */
  function Add32(a: Int32, b: Int32): (r: Int32)
    ensures -0x8000_0000 <= a + b <= 0x7fff_ffff ==> r == a + b
  {
    Wrap32(a + b)
  }

  /** Wrapping an intermediate total does not change the wrapped final total. */
  lemma WrapThenAdd(a: int, b: int)
    ensures Wrap32(Wrap32(a) + b) == Wrap32(a + b)
  {
    var w := Wrap32(a);
    WrapKeepsResidue(a);
    assert (w + b) - (a + b) == -(a - w);
    WrapCongruent(w + b, a + b);
  }

  /** The count of `w` in `m`, zero when `w` is absent. */
  function Count(m: map<Word, Int32>, w: Word): Int32
  {
    if w in m then m[w] else 0
  }

  /**
   One call `counts.compute(w, (k, v) -> v == null ? n : v + n)`: inserts `n`
   when `w` is absent, otherwise adds `n` to the present count.
   */
  function Upsert(counts: map<Word, Int32>, w: Word, n: Int32): (r: map<Word, Int32>)
    ensures r.Keys == counts.Keys + {w}
    ensures r[w] == Wrap32(Count(counts, w) + n)
    ensures forall v :: v in counts && v != w ==> r[v] == counts[v]
  {
    if w in counts then counts[w := Add32(counts[w], n)] else counts[w := n]
  }

  /**
   Reference definition of merging one page's counts: every word of either
   map gets the wrapped sum of its two counts, taking an absent count as zero.
   */
  function Merge(counts: map<Word, Int32>, page: map<Word, Int32>): map<Word, Int32>
  {
    map w | w in counts.Keys + page.Keys :: Wrap32(Count(counts, w) + Count(page, w))
  }

  /**
   The reference merge agrees with the source's add-or-insert, word by word,
   and changes no word that is not on the page.
   */
  lemma MergeIsUpserts(counts: map<Word, Int32>, page: map<Word, Int32>)
    ensures Merge(counts, page).Keys == counts.Keys + page.Keys
    ensures forall w :: w in counts || w in page ==> MergeAt(counts, page, w)
  {
    forall w | w in counts || w in page
      ensures MergeAt(counts, page, w)
    {
      MergeIsUpsertAt(counts, page, w);
    }
  }

  /**
   What `Merge` gives the word `w`: what one `Upsert` of its page count would
   give it when the page has it, and its old count otherwise.
   */
  ghost predicate MergeAt(counts: map<Word, Int32>, page: map<Word, Int32>, w: Word)
    requires w in counts || w in page
  {
    && w in Merge(counts, page)
    && (w in page ==> Merge(counts, page)[w] == Upsert(counts, w, page[w])[w])
    && (w !in page ==> Merge(counts, page)[w] == counts[w])
  }

  lemma MergeIsUpsertAt(counts: map<Word, Int32>, page: map<Word, Int32>, w: Word)
    requires w in counts || w in page
    ensures MergeAt(counts, page, w)
  {
    var r := Merge(counts, page);
    if w in page {
      assert Count(page, w) == page[w];
      assert r[w] == Wrap32(Count(counts, w) + page[w]);
    } else {
      assert r[w] == Wrap32(counts[w] + 0);
    }
  }

  /** `order` lists every key of `page` exactly once: an iteration order of the page map. */
  ghost predicate EnumeratesKeys(order: seq<Word>, page: map<Word, Int32>)
  {
    && (forall i, j :: 0 <= i < j < |order| ==> order[i] != order[j])
    && (forall w :: w in page <==> w in order)
  }

  /** Upserting one more page entry into a partial merge extends the merge by that entry. */
  lemma MergeStep(counts: map<Word, Int32>, done: map<Word, Int32>, w: Word, n: Int32)
    requires w !in done
    ensures Upsert(Merge(counts, done), w, n) == Merge(counts, done[w := n])
  {
    var partial := Merge(counts, done);
    var lhs := Upsert(partial, w, n);
    var rhs := Merge(counts, done[w := n]);
    assert lhs.Keys == rhs.Keys;
    forall v | v in lhs
      ensures lhs[v] == rhs[v]
    {
      MergeStepAt(counts, done, w, n, v);
    }
  }

  lemma MergeStepAt(counts: map<Word, Int32>, done: map<Word, Int32>, w: Word, n: Int32, v: Word)
    requires w !in done
    requires v in counts || v in done || v == w
    ensures Upsert(Merge(counts, done), w, n)[v] == Merge(counts, done[w := n])[v]
  {
    var partial := Merge(counts, done);
    var extended := done[w := n];
    if v == w {
      assert Count(extended, w) == n;
      assert Count(partial, w) == Count(counts, w) by {
        if w in counts {
          assert Count(done, w) == 0;
          assert partial[w] == Wrap32(counts[w]);
        }
      }
      assert Upsert(partial, w, n)[w] == Wrap32(Count(partial, w) + n);
    } else {
      assert Count(extended, v) == Count(done, v);
      assert Upsert(partial, w, n)[v] == partial[v];
    }
  }

  /** Merging a page without words leaves the counts as they are. */
  lemma MergeNothing(counts: map<Word, Int32>)
    ensures Merge(counts, map[]) == counts
  {
    forall w | w in counts
      ensures Merge(counts, map[])[w] == counts[w]
    {
      assert Count(map[], w) == 0;
    }
  }

  /** The entries of `page` whose keys come among the first `i` of `order`. */
  ghost function Iterated(page: map<Word, Int32>, order: seq<Word>, i: nat): map<Word, Int32>
    requires EnumeratesKeys(order, page)
    requires i <= |order|
  {
    map w | w in order[..i] :: page[w]
  }

  lemma IteratedNext(page: map<Word, Int32>, order: seq<Word>, i: nat)
    requires EnumeratesKeys(order, page)
    requires i < |order|
    ensures order[i] !in Iterated(page, order, i)
    ensures Iterated(page, order, i + 1) == Iterated(page, order, i)[order[i] := page[order[i]]]
  {
    assert order[..i + 1] == order[..i] + [order[i]];
  }

  /** One more step of the iteration extends the partial merge by the next entry. */
  lemma UpsertNext(counts: map<Word, Int32>, page: map<Word, Int32>, order: seq<Word>, i: nat)
    requires EnumeratesKeys(order, page)
    requires i < |order|
    ensures Upsert(Merge(counts, Iterated(page, order, i)), order[i], page[order[i]])
         == Merge(counts, Iterated(page, order, i + 1))
  {
    IteratedNext(page, order, i);
    MergeStep(counts, Iterated(page, order, i), order[i], page[order[i]]);
  }

  lemma IteratedAll(page: map<Word, Int32>, order: seq<Word>)
    requires EnumeratesKeys(order, page)
    ensures Iterated(page, order, |order|) == page
  {
    assert order[..|order|] == order;
  }

  /**
   The page's `forEach` over its entries, one `Upsert` per entry in the map's
   iteration order. Whatever that order, the result is the pointwise `Merge`.
   */
  method MergePage(counts: map<Word, Int32>, page: map<Word, Int32>, order: seq<Word>)
    returns (r: map<Word, Int32>)
    requires EnumeratesKeys(order, page)
    ensures r == Merge(counts, page)
  {
    r := counts;
    var i := 0;
    assert Iterated(page, order, 0) == map[];
    MergeNothing(counts);
    while i < |order|
      invariant 0 <= i <= |order|
      invariant r == Merge(counts, Iterated(page, order, i))
    {
      var w := order[i];
      UpsertNext(counts, page, order, i);
      r := Upsert(r, w, page[w]);
      i := i + 1;
    }
    IteratedAll(page, order);
  }

  /** The accumulator after merging each of `pages`, in order, into an empty map. */
  function Tally(pages: seq<map<Word, Int32>>): map<Word, Int32>
  {
    if |pages| == 0 then map[] else Merge(Tally(pages[..|pages| - 1]), pages[|pages| - 1])
  }

  /** The exact (unbounded) total count of `w` over `pages`. */
  function Total(pages: seq<map<Word, Int32>>, w: Word): int
  {
    if |pages| == 0 then 0 else Total(pages[..|pages| - 1], w) + Count(pages[|pages| - 1], w)
  }

  /**
   The accumulated counts are the pointwise sum of the merged pages: a word is
   present exactly when some page has it, and its count is the exact total
   wrapped to a Java `int`.
   */
  lemma {:induction false} TallyIsTotal(pages: seq<map<Word, Int32>>, w: Word)
    ensures w in Tally(pages) <==> exists i :: 0 <= i < |pages| && w in pages[i]
    ensures Count(Tally(pages), w) == Wrap32(Total(pages, w))
  {
    if |pages| > 0 {
      var init := pages[..|pages| - 1];
      var last := pages[|pages| - 1];
      TallyIsTotal(init, w);
      var before := Tally(init);
      if w in before || w in last {
        assert Count(Tally(pages), w) == Wrap32(Count(before, w) + Count(last, w));
        WrapThenAdd(Total(init, w), Count(last, w));
      }
      if w in Tally(pages) {
        if w in last {
          assert w in pages[|pages| - 1];
        } else {
          var i :| 0 <= i < |init| && w in init[i];
          assert w in pages[i];
        }
      }
      if exists i :: 0 <= i < |pages| && w in pages[i] {
        var i :| 0 <= i < |pages| && w in pages[i];
        if i < |init| {
          assert w in init[i];
        }
      }
    }
  }
}

=== FILE: crawler.dfy ===
/**
 The crawl engine of `ParallelWebCrawler`: the admission gate of a crawl task,
 the merge of a fetched page into the word counts, and the bounded-depth fan-out
 over the page's links.

 Every task is started with a blocking `pool.invoke`, roots in list order and
 children in link order, so the engine behaves as a sequential depth-first
 traversal. The two shared containers (the visited set and the counts map) and
 the clock are threaded through that traversal as an immutable `State`.
 */
module Crawler {
  import opened Counts

  type Url = string

  /** What parsing one page yields: its outgoing links and its word counts. */
  datatype Page = Page(links: seq<Url>, words: map<Word, Int32>)

  /**
   The configuration of one crawler instance. `pages` stands for the page
   parser, `ignoredUrls` for the compiled patterns (each one a predicate on
   URLs) and `clock` for the injected clock: `clock(k)` is the instant its
   k-th reading returns.
   */
  datatype Config = Config(
    clock: nat -> int,
    timeout: int,
    pages: Url -> Page,
    maxDepth: nat,
    ignoredUrls: seq<Url -> bool>)

  /**
   The instance state: the visited set, the counts map, the log of URLs whose
   page was parsed (in order) and the number of clock readings made so far.
   */
  datatype State = State(visited: set<Url>, counts: map<Word, Int32>, fetched: seq<Url>, tick: nat)

  /** What `crawl` reports. The ranking of the popular words is not modelled. */
  datatype CrawlResult = CrawlResult(wordCounts: map<Word, Int32>, urlsVisited: nat)

  datatype Run = Run(state: State, result: CrawlResult)

  /** The state of a newly constructed crawler whose clock has been read `tick` times. */
  function Fresh(tick: nat): State
  {
    State({}, map[], [], tick)
  }

  /** A URL is ignored when the patterns, tried in order, have one that matches it. */
  function IsIgnored(patterns: seq<Url -> bool>, url: Url): (r: bool)
    ensures r <==> exists i :: 0 <= i < |patterns| && patterns[i](url)
  {
    if |patterns| == 0 then false
    else if patterns[0](url) then true
    else
      var rest := IsIgnored(patterns[1..], url);
      assert forall i :: 1 <= i < |patterns| ==> patterns[i] == patterns[1..][i - 1];
      rest
  }

  /**
   One `CrawlAction.compute` for `url` with `depth` remaining. The gate is
   evaluated left to right and rejects the task at the first of these that
   holds: an ignore pattern matches, no depth is left, one clock reading is
   after the deadline, the URL is already in the visited set. Only a URL none
   of them rejects is claimed, parsed, merged and fanned out, each child with
   one less depth.
   */
  function Compute(c: Config, deadline: int, url: Url, depth: nat, st: State): (r: State)
    decreases depth, 0, 0
    ensures st.visited <= r.visited
    ensures st.fetched <= r.fetched
    ensures st.tick <= r.tick
    ensures forall u :: u in r.visited && IsIgnored(c.ignoredUrls, u) ==> u in st.visited
  {
    if IsIgnored(c.ignoredUrls, url) || depth == 0 then st
    else if c.clock(st.tick) > deadline then st.(tick := st.tick + 1)
    else if url in st.visited then st.(tick := st.tick + 1)
    else InvokeAll(c, deadline, c.pages(url).links, depth - 1, Claim(c.pages, st, url))
  }

  /**
   A successful `visitedUrls.add(url)` after the clock reading, followed by
   parsing the page and merging its word counts.
   */
  function Claim(pages: Url -> Page, st: State, url: Url): (r: State)
    ensures r.visited == st.visited + {url}
    ensures r.fetched == st.fetched + [url]
    ensures r.tick == st.tick + 1
    ensures forall w :: w in pages(url).words ==>
      w in r.counts && r.counts[w] == Upsert(st.counts, w, pages(url).words[w])[w]
    ensures forall w :: w !in pages(url).words ==>
      (w in r.counts <==> w in st.counts) && Count(r.counts, w) == Count(st.counts, w)
  {
    State(st.visited + {url}, Merge(st.counts, pages(url).words), st.fetched + [url], st.tick + 1)
  }

  /** A blocking `pool.invoke` of one task per URL of `urls`, in order, all with `depth`. */
  function InvokeAll(c: Config, deadline: int, urls: seq<Url>, depth: nat, st: State): (r: State)
    decreases depth, 1, |urls|
    ensures st.visited <= r.visited
    ensures st.fetched <= r.fetched
    ensures st.tick <= r.tick
    ensures forall u :: u in r.visited && IsIgnored(c.ignoredUrls, u) ==> u in st.visited
  {
    if |urls| == 0 then st
    else InvokeAll(c, deadline, urls[1..], depth, Compute(c, deadline, urls[0], depth, st))
  }

  /**
   `crawl`: reads the clock once to fix the deadline, runs one root task per
   starting URL in order, and reports the counts and the size of the visited
   set. The state is kept for the next call, never reset.
   */
  function Crawl(c: Config, st: State, startingUrls: seq<Url>): (r: Run)
    ensures r.result.urlsVisited == |r.state.visited|
    ensures r.result.wordCounts == r.state.counts
    ensures st.visited <= r.state.visited
    ensures st.fetched <= r.state.fetched
    ensures forall u :: u in r.state.visited && IsIgnored(c.ignoredUrls, u) ==> u in st.visited
  {
    var deadline := c.clock(st.tick) + c.timeout;
    var done := InvokeAll(c, deadline, startingUrls, c.maxDepth, st.(tick := st.tick + 1));
    Run(done, CrawlResult(done.counts, |done.visited|))
  }
}

=== FILE: properties.dfy ===
/**
 Properties of the crawl engine: each page is parsed at most once per crawler
 instance, the visited set is exactly the set of parsed pages, the counts are
 the pointwise sum of the parsed pages' word counts, every visited URL lies
 within the depth budget of a starting URL, while the deadline holds every
 root and every link of an admitted page is visited, and the gate checks
 (depth, deadline, visited) leave the state untouched when they reject.
 */
module CrawlProperties {
  import opened Counts
  import opened Crawler

  ghost predicate Distinct(s: seq<Url>)
  {
    forall i, j :: 0 <= i < j < |s| ==> s[i] != s[j]
  }

  /** The word maps of the pages of `urls`, in the same order. */
  function FetchedWords(pages: Url -> Page, urls: seq<Url>): seq<map<Word, Int32>>
  {
    seq(|urls|, i requires 0 <= i < |urls| => pages(urls[i]).words)
  }

  /**
   The invariant of the instance state: no page was parsed twice, the visited
   set holds exactly the parsed URLs, and the counts are the merge of the
   parsed pages.
   */
  ghost predicate Consistent(pages: Url -> Page, st: State)
  {
    && Distinct(st.fetched)
    && (forall u :: u in st.visited <==> u in st.fetched)
    && st.counts == Tally(FetchedWords(pages, st.fetched))
  }

  /** Only the clock has been read: nothing was claimed, parsed or merged. */
  ghost predicate Quiet(st: State, r: State)
  {
    r.visited == st.visited && r.counts == st.counts && r.fetched == st.fetched
  }

  /** `to` is at most `hops` links away from `from` in the page graph. */
  ghost predicate Reachable(pages: Url -> Page, from: Url, to: Url, hops: nat)
    decreases hops
  {
    from == to || (hops > 0 && exists l :: l in pages(from).links && Reachable(pages, l, to, hops - 1))
  }

  /** The four checks of the gate all pass: the task's URL is claimed. */
  ghost predicate Admits(c: Config, deadline: int, url: Url, depth: nat, st: State)
  {
    !IsIgnored(c.ignoredUrls, url) && depth > 0 && c.clock(st.tick) <= deadline && url !in st.visited
  }

  /**
   A task parses a page exactly when its gate admits it, and then the first
   page it parses is its own URL, which it leaves visited.
   */
  lemma ComputeGate(c: Config, deadline: int, url: Url, depth: nat, st: State)
    ensures var r := Compute(c, deadline, url, depth, st);
      && (r.fetched != st.fetched <==> Admits(c, deadline, url, depth, st))
      && (Admits(c, deadline, url, depth, st) ==>
            url in r.visited && |r.fetched| > |st.fetched| && r.fetched[|st.fetched|] == url)
  {
    if Admits(c, deadline, url, depth, st) {
      var s1 := Claim(c.pages, st, url);
      var r := InvokeAll(c, deadline, c.pages(url).links, depth - 1, s1);
      assert s1.fetched <= r.fetched;
      assert r.fetched[|st.fetched|] == s1.fetched[|st.fetched|] == url;
    }
  }

  /**
   While the deadline holds, tasks with depth left visit every URL they are
   started for that no pattern ignores: each is claimed by its own task or
   was visited before.
   */
  lemma {:induction false} InvokeAllVisits(c: Config, deadline: int, urls: seq<Url>, depth: nat, st: State)
    requires depth > 0
    requires forall k :: st.tick <= k ==> c.clock(k) <= deadline
    ensures forall i :: 0 <= i < |urls| && !IsIgnored(c.ignoredUrls, urls[i]) ==>
      urls[i] in InvokeAll(c, deadline, urls, depth, st).visited
    decreases |urls|
  {
    if |urls| > 0 {
      var first := Compute(c, deadline, urls[0], depth, st);
      ComputeGate(c, deadline, urls[0], depth, st);
      InvokeAllVisits(c, deadline, urls[1..], depth, first);
      forall i | 1 <= i < |urls|
        ensures urls[i] == urls[1..][i - 1]
      {
      }
    }
  }

  /**
   An admitted task with more than one level of depth starts a task for each
   of its page's links: while the deadline holds, every link no pattern
   ignores ends up visited.
   */
  lemma ComputeFansOut(c: Config, deadline: int, url: Url, depth: nat, st: State)
    requires Admits(c, deadline, url, depth, st) && depth > 1
    requires forall k :: st.tick <= k ==> c.clock(k) <= deadline
    ensures forall l :: l in c.pages(url).links && !IsIgnored(c.ignoredUrls, l) ==>
      l in Compute(c, deadline, url, depth, st).visited
  {
    InvokeAllVisits(c, deadline, c.pages(url).links, depth - 1, Claim(c.pages, st, url));
  }

  /** A newly constructed crawler is consistent. */
  lemma FreshIsConsistent(pages: Url -> Page, tick: nat)
    ensures Consistent(pages, Fresh(tick))
  {
    assert FetchedWords(pages, []) == [];
  }

  /** Claiming a URL not yet visited keeps the state consistent. */
  lemma ClaimConsistent(pages: Url -> Page, st: State, url: Url)
    requires Consistent(pages, st)
    requires url !in st.visited
    ensures Consistent(pages, Claim(pages, st, url))
  {
    var r := Claim(pages, st, url);
    var ws := FetchedWords(pages, r.fetched);
    assert ws[..|ws| - 1] == FetchedWords(pages, st.fetched);
    assert Tally(ws) == Merge(Tally(FetchedWords(pages, st.fetched)), pages(url).words);
    forall u
      ensures u in r.visited <==> u in r.fetched
    {
      assert u in r.fetched <==> u in st.fetched || u == url;
    }
  }

  /** A task keeps the state consistent: in particular it parses no page a second time. */
  lemma {:induction false} ComputeConsistent(c: Config, deadline: int, url: Url, depth: nat, st: State)
    requires Consistent(c.pages, st)
    ensures Consistent(c.pages, Compute(c, deadline, url, depth, st))
    decreases depth, 0, 0
  {
    if !IsIgnored(c.ignoredUrls, url) && depth != 0 && c.clock(st.tick) <= deadline && url !in st.visited {
      ClaimConsistent(c.pages, st, url);
      InvokeAllConsistent(c, deadline, c.pages(url).links, depth - 1, Claim(c.pages, st, url));
    }
  }

  lemma {:induction false} InvokeAllConsistent(c: Config, deadline: int, urls: seq<Url>, depth: nat, st: State)
    requires Consistent(c.pages, st)
    ensures Consistent(c.pages, InvokeAll(c, deadline, urls, depth, st))
    decreases depth, 1, |urls|
  {
    if |urls| > 0 {
      ComputeConsistent(c, deadline, urls[0], depth, st);
      InvokeAllConsistent(c, deadline, urls[1..], depth, Compute(c, deadline, urls[0], depth, st));
    }
  }

  /** A URL first claimed by a task is within `depth - 1` links of the task's URL. */
  lemma {:induction false} ComputeWithinDepth(c: Config, deadline: int, url: Url, depth: nat, st: State, u: Url)
    requires u in Compute(c, deadline, url, depth, st).visited && u !in st.visited
    ensures depth > 0 && Reachable(c.pages, url, u, depth - 1)
    decreases depth, 0, 0
  {
    if u != url {
      var links := c.pages(url).links;
      InvokeAllWithinDepth(c, deadline, links, depth - 1, Claim(c.pages, st, url), u);
      var i :| 0 <= i < |links| && Reachable(c.pages, links[i], u, depth - 2);
      assert links[i] in c.pages(url).links;
    }
  }

  lemma {:induction false} InvokeAllWithinDepth(c: Config, deadline: int, urls: seq<Url>, depth: nat, st: State, u: Url)
    requires u in InvokeAll(c, deadline, urls, depth, st).visited && u !in st.visited
    ensures depth > 0 && exists i :: 0 <= i < |urls| && Reachable(c.pages, urls[i], u, depth - 1)
    decreases depth, 1, |urls|
  {
    var first := Compute(c, deadline, urls[0], depth, st);
    if u in first.visited {
      ComputeWithinDepth(c, deadline, urls[0], depth, st, u);
    } else {
      InvokeAllWithinDepth(c, deadline, urls[1..], depth, first, u);
      var i :| 0 <= i < |urls[1..]| && Reachable(c.pages, urls[1..][i], u, depth - 1);
      assert urls[1..][i] == urls[i + 1];
    }
  }

  /** Tasks started with no depth left do nothing at all, not even read the clock. */
  lemma {:induction false} NoDepthNoEffect(c: Config, deadline: int, urls: seq<Url>, st: State)
    ensures InvokeAll(c, deadline, urls, 0, st) == st
    decreases |urls|
  {
    if |urls| > 0 {
      NoDepthNoEffect(c, deadline, urls[1..], st);
    }
  }

  /**
   A task that passes the ignore and depth checks but reads the clock after
   the deadline only consumes that reading: nothing is claimed or parsed, and
   the URL stays unvisited, free to be claimed by a later task.
   */
  lemma ExpiredTaskNoEffect(c: Config, deadline: int, url: Url, depth: nat, st: State)
    requires !IsIgnored(c.ignoredUrls, url) && depth > 0
    requires c.clock(st.tick) > deadline
    ensures Compute(c, deadline, url, depth, st) == st.(tick := st.tick + 1)
  {
  }

  /**
   When every clock reading from now on is past the deadline, no task claims,
   parses or merges anything, however deep its budget.
   */
  lemma {:induction false} PastDeadlineNoEffect(c: Config, deadline: int, urls: seq<Url>, depth: nat, st: State)
    requires forall k :: st.tick <= k ==> c.clock(k) > deadline
    ensures Quiet(st, InvokeAll(c, deadline, urls, depth, st))
    decreases |urls|
  {
    if |urls| > 0 {
      var first := Compute(c, deadline, urls[0], depth, st);
      assert Quiet(st, first);
      PastDeadlineNoEffect(c, deadline, urls[1..], depth, first);
    }
  }

  /** Tasks for URLs that are all visited already are rejected by the claim and change nothing. */
  lemma {:induction false} VisitedNoEffect(c: Config, deadline: int, urls: seq<Url>, depth: nat, st: State)
    requires forall i :: 0 <= i < |urls| ==> urls[i] in st.visited
    ensures Quiet(st, InvokeAll(c, deadline, urls, depth, st))
    decreases |urls|
  {
    if |urls| > 0 {
      var first := Compute(c, deadline, urls[0], depth, st);
      assert Quiet(st, first);
      VisitedNoEffect(c, deadline, urls[1..], depth, first);
    }
  }

  /** A duplicate-free sequence has as many distinct elements as entries. */
  lemma {:induction false} DistinctCardinality(s: seq<Url>)
    requires Distinct(s)
    ensures |set u | u in s| == |s|
  {
    if |s| > 0 {
      var init := s[..|s| - 1];
      DistinctCardinality(init);
      assert (set u | u in s) == (set u | u in init) + {s[|s| - 1]};
      assert s[|s| - 1] !in init;
    }
  }

  /** In a consistent state, the number of visited URLs is the number of parsed pages. */
  lemma VisitedCountIsFetches(pages: Url -> Page, st: State)
    requires Consistent(pages, st)
    ensures |st.visited| == |st.fetched|
  {
    assert st.visited == set u | u in st.fetched;
    DistinctCardinality(st.fetched);
  }

  /**
   Every `crawl` on a crawler instance keeps it consistent. Over the whole
   life of the instance each page is parsed at most once, the reported count
   is the number of pages parsed, and the reported counts are, word by word,
   the wrapped sum over all parsed pages.
   */
  lemma CrawlConsistent(c: Config, st: State, startingUrls: seq<Url>)
    requires Consistent(c.pages, st)
    ensures var r := Crawl(c, st, startingUrls);
      && Consistent(c.pages, r.state)
      && r.result.urlsVisited == |r.state.fetched|
      && forall w :: Count(r.result.wordCounts, w) == Wrap32(Total(FetchedWords(c.pages, r.state.fetched), w))
  {
    var deadline := c.clock(st.tick) + c.timeout;
    InvokeAllConsistent(c, deadline, startingUrls, c.maxDepth, st.(tick := st.tick + 1));
    var r := Crawl(c, st, startingUrls);
    VisitedCountIsFetches(c.pages, r.state);
    forall w
      ensures Count(r.result.wordCounts, w) == Wrap32(Total(FetchedWords(c.pages, r.state.fetched), w))
    {
      TallyIsTotal(FetchedWords(c.pages, r.state.fetched), w);
    }
  }

  /**
   The first `crawl` of a new crawler: the visited URLs are exactly the parsed
   ones, none twice, none ignored, each within `maxDepth - 1` links of a
   starting URL; a word is reported exactly when some parsed page has it.
   */
  lemma CrawlFromFresh(c: Config, tick: nat, startingUrls: seq<Url>)
    ensures var r := Crawl(c, Fresh(tick), startingUrls);
      && Distinct(r.state.fetched)
      && (forall u :: u in r.state.visited <==> u in r.state.fetched)
      && r.result.urlsVisited == |r.state.fetched|
      && (forall u :: u in r.state.visited ==> !IsIgnored(c.ignoredUrls, u))
      && (forall u :: u in r.state.visited ==>
            c.maxDepth > 0 && exists i :: 0 <= i < |startingUrls| && Reachable(c.pages, startingUrls[i], u, c.maxDepth - 1))
      && (forall w :: w in r.result.wordCounts <==> exists i :: 0 <= i < |r.state.fetched| && w in c.pages(r.state.fetched[i]).words)
  {
    FreshIsConsistent(c.pages, tick);
    CrawlConsistent(c, Fresh(tick), startingUrls);
    var st := Fresh(tick);
    var deadline := c.clock(st.tick) + c.timeout;
    var r := Crawl(c, st, startingUrls);
    forall u | u in r.state.visited
      ensures c.maxDepth > 0 && exists i :: 0 <= i < |startingUrls| && Reachable(c.pages, startingUrls[i], u, c.maxDepth - 1)
    {
      InvokeAllWithinDepth(c, deadline, startingUrls, c.maxDepth, st.(tick := st.tick + 1), u);
    }
    var ws := FetchedWords(c.pages, r.state.fetched);
    forall w
      ensures w in r.result.wordCounts <==> exists i :: 0 <= i < |r.state.fetched| && w in c.pages(r.state.fetched[i]).words
    {
      TallyIsTotal(ws, w);
      if w in r.result.wordCounts {
        var i :| 0 <= i < |ws| && w in ws[i];
        assert w in c.pages(r.state.fetched[i]).words;
      }
      if exists i :: 0 <= i < |r.state.fetched| && w in c.pages(r.state.fetched[i]).words {
        var i :| 0 <= i < |r.state.fetched| && w in c.pages(r.state.fetched[i]).words;
        assert w in ws[i];
      }
    }
  }

  /**
   `crawl` starts a task for each starting URL: with depth to spend and a
   deadline not yet passed at any later reading, every starting URL that no
   pattern ignores is visited.
   */
  lemma CrawlVisitsRoots(c: Config, st: State, startingUrls: seq<Url>)
    requires c.maxDepth > 0
    requires forall k :: st.tick < k ==> c.clock(k) <= c.clock(st.tick) + c.timeout
    ensures forall i :: 0 <= i < |startingUrls| && !IsIgnored(c.ignoredUrls, startingUrls[i]) ==>
      startingUrls[i] in Crawl(c, st, startingUrls).state.visited
  {
    InvokeAllVisits(c, c.clock(st.tick) + c.timeout, startingUrls, c.maxDepth, st.(tick := st.tick + 1));
  }

  /** A crawler configured with no depth visits nothing and reports no words. */
  lemma NoDepthCrawl(c: Config, st: State, startingUrls: seq<Url>)
    requires c.maxDepth == 0
    ensures Quiet(st, Crawl(c, st, startingUrls).state)
    ensures Consistent(c.pages, st) && st.fetched == [] ==> Crawl(c, st, startingUrls).result == CrawlResult(map[], 0)
  {
    var deadline := c.clock(st.tick) + c.timeout;
    NoDepthNoEffect(c, deadline, startingUrls, st.(tick := st.tick + 1));
    if Consistent(c.pages, st) && st.fetched == [] {
      assert FetchedWords(c.pages, []) == [];
      assert st.visited == {};
    }
  }

  /**
   A crawl whose deadline has passed by the first task's clock reading does
   nothing. When every later reading is after the one that fixed the deadline,
   this is the case for every timeout that is not positive.
   */
  lemma ExpiredCrawl(c: Config, st: State, startingUrls: seq<Url>)
    requires forall k :: st.tick < k ==> c.clock(st.tick) < c.clock(k)
    requires c.timeout <= 0
    ensures Quiet(st, Crawl(c, st, startingUrls).state)
  {
    var deadline := c.clock(st.tick) + c.timeout;
    forall k | st.tick + 1 <= k
      ensures c.clock(k) > deadline
    {
      assert c.clock(st.tick) < c.clock(k);
    }
    PastDeadlineNoEffect(c, deadline, startingUrls, c.maxDepth, st.(tick := st.tick + 1));
  }

  /**
   The visited set and counts are instance fields, not reset by `crawl`: a
   second crawl of starting URLs already visited parses nothing more.
   */
  lemma RecrawlNoEffect(c: Config, st: State, startingUrls: seq<Url>)
    requires forall i :: 0 <= i < |startingUrls| ==> startingUrls[i] in st.visited
    ensures Quiet(st, Crawl(c, st, startingUrls).state)
    ensures Crawl(c, st, startingUrls).result.urlsVisited == |st.visited|
  {
    var deadline := c.clock(st.tick) + c.timeout;
    VisitedNoEffect(c, deadline, startingUrls, c.maxDepth, st.(tick := st.tick + 1));
  }
}

=== FILE: scenarios.dfy ===
/**
 Small link graphs whose crawl outcome is proved, showing how the depth-first claim
 order decides which pages are visited.
 */
module Scenarios {
  import opened Counts
  import opened Crawler

  /** A -> B, C;  B -> A, D;  C and D have no links. */
  function CycleGraph(u: Url): Page
  {
    if u == "A" then Page(["B", "C"], map["web" := 1])
    else if u == "B" then Page(["A", "D"], map["web" := 2, "crawler" := 1])
    else if u == "C" then Page([], map["crawler" := 4])
    else if u == "D" then Page([], map["web" := 8])
    else Page([], map[])
  }

  /** A clock that never moves: no deadline in the future is ever passed. */
  function Frozen(k: nat): int
  {
    0
  }

  /** The states after claiming A, then B, then C. */
  function CycleStates(): (r: (State, State, State))
  {
    var sA := Claim(CycleGraph, Fresh(0).(tick := 1), "A");
    var sB := Claim(CycleGraph, sA, "B");
    (sA, sB, Claim(CycleGraph, sB, "C"))
  }

  /** B, reached from A with depth 1, is claimed; its links arrive with no depth left. */
  lemma CycleVisitB()
    ensures Compute(Config(Frozen, 1000, CycleGraph, 2, []), 1000, "B", 1, CycleStates().0) == CycleStates().1
  {
    var c := Config(Frozen, 1000, CycleGraph, 2, []);
    var (sA, sB, _) := CycleStates();
    assert InvokeAll(c, 1000, ["A", "D"], 0, sB) == sB by {
      assert Compute(c, 1000, "A", 0, sB) == sB;
      assert Compute(c, 1000, "D", 0, sB) == sB;
    }
  }

  /** C, reached from A with depth 1 after B, is claimed. */
  lemma CycleVisitC()
    ensures Compute(Config(Frozen, 1000, CycleGraph, 2, []), 1000, "C", 1, CycleStates().1) == CycleStates().2
  {
    var c := Config(Frozen, 1000, CycleGraph, 2, []);
    var sC := CycleStates().2;
    assert InvokeAll(c, 1000, [], 0, sC) == sC;
  }

  /** The links of A, started with depth 1, claim B and then C. */
  lemma CycleLinksOfA()
    ensures InvokeAll(Config(Frozen, 1000, CycleGraph, 2, []), 1000, ["B", "C"], 1, CycleStates().0) == CycleStates().2
  {
    var c := Config(Frozen, 1000, CycleGraph, 2, []);
    CycleVisitB();
    CycleVisitC();
    assert InvokeAll(c, 1000, [], 1, CycleStates().2) == CycleStates().2;
    assert InvokeAll(c, 1000, ["C"], 1, CycleStates().1) == CycleStates().2;
  }

  /** The traversal from A with depth 2 claims A, B and C, in that order. */
  lemma CycleTraversal()
    ensures InvokeAll(Config(Frozen, 1000, CycleGraph, 2, []), 1000, ["A"], 2, Fresh(0).(tick := 1)) == CycleStates().2
  {
    var c := Config(Frozen, 1000, CycleGraph, 2, []);
    var s0 := Fresh(0).(tick := 1);
    CycleLinksOfA();
    assert Compute(c, 1000, "A", 2, s0) == CycleStates().2;
  }

  /**
   With a depth budget of 2 the root A is claimed at depth 2 and its links B
   and C at depth 1; D, linked from B, is reached with no depth left and is
   neither claimed nor parsed, so three pages are visited.
   */
  lemma CycleDepthTwo()
    ensures var r := Crawl(Config(Frozen, 1000, CycleGraph, 2, []), Fresh(0), ["A"]);
      && r.state.visited == {"A", "B", "C"}
      && r.state.fetched == ["A", "B", "C"]
      && r.result.urlsVisited == 3
      && r.result.wordCounts == map["web" := 3, "crawler" := 5]
  {
    CycleTraversal();
    var sC := CycleStates().2;
    assert sC.fetched == ["A", "B", "C"];
    assert sC.visited == {"A", "B", "C"};
    CycleCounts();
    assert sC.counts == map["web" := 3, "crawler" := 5];
  }

  /** Merging the pages of A, B and C in that order. */
  lemma CycleCounts()
    ensures Merge(Merge(Merge(map[], CycleGraph("A").words), CycleGraph("B").words), CycleGraph("C").words)
         == map["web" := 3, "crawler" := 5]
  {
    MergeOfA();
    MergeOfB();
    MergeOfC();
  }

  lemma MergeOfA()
    ensures Merge(map[], CycleGraph("A").words) == map["web" := 1]
  {
    var a := Merge(map[], CycleGraph("A").words);
    assert a.Keys == {"web"};
    assert a["web"] == Wrap32(0 + 1);
  }

  lemma MergeOfB()
    ensures Merge(map["web" := 1], CycleGraph("B").words) == map["web" := 3, "crawler" := 1]
  {
    var b := Merge(map["web" := 1], CycleGraph("B").words);
    assert b.Keys == {"web", "crawler"};
    assert b["web"] == Wrap32(1 + 2);
    assert b["crawler"] == Wrap32(0 + 1);
  }

  lemma MergeOfC()
    ensures Merge(map["web" := 3, "crawler" := 1], CycleGraph("C").words) == map["web" := 3, "crawler" := 5]
  {
    var m := Merge(map["web" := 3, "crawler" := 1], CycleGraph("C").words);
    assert m.Keys == {"web", "crawler"};
    assert m["web"] == Wrap32(3 + 0);
    assert m["crawler"] == Wrap32(1 + 4);
  }

  /** A -> B, C;  B -> C;  C -> D. */
  function LongPathGraph(u: Url): Page
  {
    if u == "A" then Page(["B", "C"], map[])
    else if u == "B" then Page(["C"], map[])
    else if u == "C" then Page(["D"], map[])
    else Page([], map[])
  }

  /**
   C is first reached through B with depth 1 and claimed there, so D, linked
   from C, arrives with no depth left. The shorter path A -> C then finds C
   already visited: D is two links from A, within the budget of 3, and is
   still never visited.
   */
  lemma LongPathClaimsFirst()
    ensures var r := Crawl(Config(Frozen, 1000, LongPathGraph, 3, []), Fresh(0), ["A"]);
      && r.state.visited == {"A", "B", "C"}
      && r.state.fetched == ["A", "B", "C"]
  {
    assert "D" in LongPathGraph("C").links && "C" in LongPathGraph("A").links;
    var c := Config(Frozen, 1000, LongPathGraph, 3, []);
    var s0 := Fresh(0).(tick := 1);
    var sA := Claim(LongPathGraph, s0, "A");
    var sB := Claim(LongPathGraph, sA, "B");
    var sC := Claim(LongPathGraph, sB, "C");
    assert Compute(c, 1000, "D", 0, sC) == sC;
    assert InvokeAll(c, 1000, ["D"], 0, sC) == sC;
    assert Compute(c, 1000, "C", 1, sB) == sC;
    assert InvokeAll(c, 1000, ["C"], 1, sB) == sC;
    assert Compute(c, 1000, "B", 2, sA) == sC;
    var sC' := sC.(tick := sC.tick + 1);
    assert Compute(c, 1000, "C", 2, sC) == sC';
    assert InvokeAll(c, 1000, ["B", "C"], 2, sA) == sC';
    assert Compute(c, 1000, "A", 3, s0) == sC';
    assert InvokeAll(c, 1000, ["A"], 3, s0) == sC';
  }

  /** A pattern matching exactly "C". */
  function MatchesC(u: Url): bool
  {
    u == "C"
  }

  /** The traversal from A with depth 2 and C ignored claims A and B only. */
  lemma IgnoredTraversal()
    ensures InvokeAll(Config(Frozen, 1000, CycleGraph, 2, [MatchesC]), 1000, ["A"], 2, Fresh(0).(tick := 1))
         == CycleStates().1
  {
    var c := Config(Frozen, 1000, CycleGraph, 2, [MatchesC]);
    var s0 := Fresh(0).(tick := 1);
    var (sA, sB, _) := CycleStates();
    assert !IsIgnored([MatchesC], "A") && !IsIgnored([MatchesC], "B") && IsIgnored([MatchesC], "C");
    assert InvokeAll(c, 1000, ["A", "D"], 0, sB) == sB by {
      assert Compute(c, 1000, "A", 0, sB) == sB;
      assert Compute(c, 1000, "D", 0, sB) == sB;
    }
    assert Compute(c, 1000, "B", 1, sA) == sB;
    assert Compute(c, 1000, "C", 1, sB) == sB;
    assert InvokeAll(c, 1000, ["B", "C"], 1, sA) == sB;
    assert Compute(c, 1000, "A", 2, s0) == sB;
  }

  /** With C ignored, A links to C but C is neither claimed nor parsed. */
  lemma IgnoredLinkSkipped()
    ensures var r := Crawl(Config(Frozen, 1000, CycleGraph, 2, [MatchesC]), Fresh(0), ["A"]);
      && r.state.visited == {"A", "B"}
      && r.result.urlsVisited == 2
  {
    IgnoredTraversal();
    assert CycleStates().1.visited == {"A", "B"};
  }

  /** A clock whose first two readings are 0 and every later one is 10. */
  function StepClock(k: nat): int
  {
    if k < 2 then 0 else 10
  }

  /** A pattern matching exactly "I". */
  function MatchesI(u: Url): bool
  {
    u == "I"
  }

  /** Pages without links or words. */
  function Blank(u: Url): Page
  {
    Page([], map[])
  }

  /**
   The ignore check comes first and reads no clock. With roots I then X, I
   ignored and a timeout of 0, the deadline is the crawl's reading 0, and X's
   gate gets the second reading, also 0, so X is claimed.
   */
  lemma IgnoredRootReadsNoClock()
    ensures var r := Crawl(Config(StepClock, 0, Blank, 1, [MatchesI]), Fresh(0), ["I", "X"]);
      && r.state.visited == {"X"}
      && r.state.tick == 2
  {
    var c := Config(StepClock, 0, Blank, 1, [MatchesI]);
    var s1 := Fresh(0).(tick := 1);
    assert IsIgnored([MatchesI], "I") && !IsIgnored([MatchesI], "X");
    assert Compute(c, 0, "I", 1, s1) == s1;
    var sX := Claim(Blank, s1, "X");
    assert InvokeAll(c, 0, [], 0, sX) == sX;
    assert Compute(c, 0, "X", 1, s1) == sX;
    assert InvokeAll(c, 0, ["I", "X"], 1, s1) == sX;
  }
}
